=== FILE: README.md ===
# Spy Cat Agency back end, modelled in Dafny

The service keeps three tables: cats, missions and targets. A mission names at
most one cat and owns between one and three targets; a target records a name, a
country, free-form notes and a completion flag. Route handlers create, read,
update and delete these records under a handful of business rules: a cat's
breed must be one of a list fetched at startup; a mission is created with one
to three targets; a mission that names a cat cannot be deleted; a cat with an
uncompleted mission cannot be assigned to a second one; the notes of a
complete target are frozen; and completing the last open target completes its
mission.

The model treats the database as one immutable value (`Models.State`: three
finite maps from primary key to row) and each route handler as a pure function
from a state and the request's arguments to `Result<Reply<V>>`: either an
`Error` (one constructor per distinct HTTP error the handler raises) or the
new state together with the response value. Every handler performs all of its
checks before it writes anything, so a failure carries no state and leaves the
database as it was (`Lifecycle.After`).

Files, one module each:

- `keys.dfy` (`Keys`): integer primary keys. New rows get SQLite's rowid
  allocation, one past the greatest id in the table or 1 for an empty table
  (`FreshId`). A query without ORDER BY has no guaranteed order; the model
  fixes it to ascending id, the order of a full-table scan, for the listings
  and for `.first()` (`SortedKeys`, `Rows`).
- `models.dfy` (`Models`): the row datatypes of `models.py`, the errors, the
  `targets` relationship of a mission (`TargetIds`, `TargetsOf`), the mission
  response body (`View`), and the ownership invariant `WellFormed`.
- `cats.dfy` (`Cats`): the handlers of `routers/cats.py`.
- `missions.dfy` (`Missions`): the handlers of `routers/missions.py`.
- `lifecycle.dfy` (`Lifecycle`): the service as a state machine over
  `Request`s, with the invariants every step keeps and the one that
  `create_mission` breaks.
- `behaviour.dfy` (`Behaviour`): multi-call properties: what a later read
  sees, how completion propagates, where the code does not keep the rules its
  own checks and comments describe, and a three-request session with a cat
  named Tom.

Behaviour of the code that its own comments and checks do not lead one to
expect, which the model reproduces:

- The comments at models.py:16 and routers/missions.py:34 say missions can
  be unassigned, and `create_mission` guards its cat lookup with
  `is not None` (routers/missions.py:42). But the request schema makes
  `cat_id` a required integer (routers/missions.py:17), so the guard is
  always taken and every mission names a cat from birth. Nothing clears
  `cat_id`, so `delete_mission` can never succeed on a database built by the
  handlers (`Lifecycle.NoMissionIsEverDeleted`).
- `update_target` writes `update.complete` unconditionally at
  routers/missions.py:148, under the comment "Always update completion
  state". It then writes it again under an `is not None` guard at lines
  151-152. The first write makes an update without a flag store null, which
  every later check reads as false, so a complete target's notes can then be
  edited (`Behaviour.EmptyUpdateThawsNotes`). The response schema declares
  the flag a plain boolean (routers/missions.py:25, 36), so from then on
  every response that carries this target is refused with a server error;
  the model does not reproduce that refusal (see "Left out").
- The comment at routers/missions.py:101-102 weighs two designs: a cat with
  several missions of which only one is uncompleted, or a cat unassigned
  once its mission completes, and names the second as the one chosen. Yet
  nothing unassigns a cat on completion: the code enforces the first
  design's rule, and only in `assign_cat_to_mission`. `create_mission` does
  not check the cat's other missions
  (`Lifecycle.CreateMissionBreaksAtMostOneActive`).
- Re-assigning a cat to the uncompleted mission it already holds changes
  nothing only while that is the cat's one uncompleted mission
  (`Behaviour.ReassignSameCatIsIdempotent`). Once `create_mission` has given
  the cat a second one, re-assigning it to the later mission is refused as
  "already assigned", because the conflict query finds the earlier mission
  (`Behaviour.ReassignLaterOpenMissionIsRefused`).
- Completion is evaluated only by a target update that sets the flag to
  true (routers/missions.py:151-158), and nothing clears it. A mission
  created with every target complete stays incomplete, and reopening a
  target leaves its mission complete
  (`Behaviour.CreatedCompleteTargetsLeaveMissionOpen`,
  `Behaviour.ReopenedTargetKeepsMissionComplete`).

## Model

| member | source | states |
|---|---|---|
| `Keys.FreshId` | models.py:15 | the id given to a new row is unused and greater than every id in the table; it is 1 for an empty table and one past the greatest id otherwise |
| `Keys.SortedKeys` | routers/missions.py:73 | the order the model fixes for a query without ORDER BY, which SQLite does not guarantee: every id exactly once, strictly ascending, and nothing else |
| `Keys.Rows` | routers/cats.py:85 | `.all()` on a table: every row exactly once, paired with its id, in the fixed ascending id order |
| `Keys.FirstMemberIsLeast` | routers/missions.py:116-119 | in an ascending scan that visits every member of a set, the first position holding a member holds the set's least member, and there is none exactly when the set is empty |
| `Models.FlagTruthiness` | routers/missions.py:141-157 | a target's nullable flag counts as complete only when it holds true; null and false both read as incomplete, as at lines 141, 155 and 157 |
| `Models.TargetsOf` | models.py:19-31 | the `targets` relationship of a mission: exactly the target rows whose mission id is that mission, as stored |
| `Models.OwnedTargetsPartition` | models.py:25-31 | while every target's mission is stored, each target belongs to the relationship of its own mission and of no other |
| `Cats.ValidBreeds` | routers/cats.py:44-47 | the readiness dependency fails NotReady exactly when the breed list is empty and otherwise yields the list |
| `Cats.CreateCat` | routers/cats.py:62-72 | NotReady when no breeds are loaded, InvalidBreed when the breed is not in the list, success exactly otherwise; on success the cat is stored as given under an unused id, its breed is in the list, and no other row changes |
| `Cats.UpdateCatSalary` | routers/cats.py:50-60 | NotFound exactly for an unknown id; otherwise the response is the id with the updated record, whose salary is the new one; its other fields and every other row stay as they were |
| `Cats.DeleteCat` | routers/cats.py:74-81 | NotFound exactly for an unknown id; otherwise only that cat is removed and missions and targets stay as they were |
| `Cats.ReadCat` | routers/cats.py:88-93 | NotFound exactly for an unknown id; otherwise the stored record paired with its id |
| `Cats.ListCats` | routers/cats.py:83-85 | every stored cat appears exactly once, paired with its id, in ascending id order, and nothing else appears |
| `Missions.NewTarget` | routers/missions.py:56-62 | a target row built from an input carries the mission id and the input's name, country and notes; its flag is never null and reads as complete exactly when the input says so |
| `Missions.AddTargets` | routers/missions.py:55-63 | inserting the targets of a request adds exactly one row per input under consecutive fresh ids, each bound to the mission and carrying the input's fields, and leaves existing rows alone |
| `Missions.CreateMission` | routers/missions.py:39-68 | NotFound exactly when the cat is unknown (checked first), BadTargetCount exactly when the cat exists and the count is outside 1..3; on success one mission is added under a fresh id with the given cat and an incomplete flag, exactly one target per input bound to it with the input's fields, and nothing else changes |
| `Missions.GetMission` | routers/missions.py:76-81 | NotFound exactly for an unknown id; otherwise the mission's columns with exactly the targets whose mission id is this mission |
| `Missions.ListMissions` | routers/missions.py:71-74 | one response per stored mission, each one that mission's columns and targets, in ascending id order |
| `Missions.ListMissionsComplete` | routers/missions.py:71-74 | every stored mission appears in the listing |
| `Missions.DeleteMission` | routers/missions.py:84-98 | NotFound for an unknown id, MissionAssigned exactly when the mission names a cat, success exactly when it names none; on success the mission and every target it owns are removed and nothing else changes |
| `Missions.AssignCat` | routers/missions.py:103-132 | NotFound exactly when the mission or the cat is unknown; CatAlreadyAssigned only when the cat has another uncompleted mission, and always when it has one and the assigned mission is not among its uncompleted ones; success whenever the cat has no uncompleted mission but this one; on success only the mission's cat changes, overwriting any previous one |
| `Missions.FirstActiveAt` | routers/missions.py:116-119 | the conflict query's `.first()` over a scan: the first position whose mission is an uncompleted mission of the cat, with no earlier one, or the end of the scan when none is |
| `Missions.FirstActiveIsLeast` | routers/missions.py:116-119 | in a scan in id order, `.first()` finds no row exactly when the cat has no uncompleted mission, and otherwise finds its least one |
| `Missions.AssignRefusesOnFirstRow` | routers/missions.py:116-125 | assignment is refused with CatAlreadyAssigned exactly when the mission and cat exist and the row `.first()` returns, in a scan in id order, is another mission |
| `Missions.AllDoneOverRelationship` | routers/missions.py:157 | the completion test is `all` over the mission's `targets` relationship, and like Python's `all` it holds of a mission with no targets |
| `Missions.UpdateTarget` | routers/missions.py:134-163 | NotFound exactly for an unknown target; TargetFrozen exactly when notes are supplied and the target is complete; on success notes change only when supplied, the flag is overwritten with the supplied one (null included), other targets and cats are unchanged, and the mission becomes complete exactly when it was or the update sets the flag to true and all its targets are then complete |
| `Lifecycle.AddMissionOwnership` | models.py:19-25 | a mission added together with targets bound to it owns exactly those targets, and every other mission keeps the targets it had |
| `Lifecycle.CreateMissionOwnership` | routers/missions.py:50-66 | a created mission owns exactly as many targets as the request carried, and every target still belongs to a stored mission |
| `Lifecycle.CreateMissionKeepsWellFormed` | routers/missions.py:39-68 | creation keeps every target owned by a stored mission and every mission at one to three targets |
| `Lifecycle.DeleteMissionKeepsWellFormed` | routers/missions.py:84-98 | the cascade removes the deleted mission's targets, so no target is left without its mission |
| `Lifecycle.UpdateTargetKeepsWellFormed` | routers/missions.py:134-163 | a target update never moves a target to another mission |
| `Lifecycle.StepKeepsWellFormed` | models.py:19-25 | every handler keeps the ownership invariant |
| `Lifecycle.RunKeepsWellFormed` | models.py:19-25 | any sequence of requests keeps the ownership invariant, so every mission keeps one to three targets for its whole life |
| `Lifecycle.StepKeepsBreedsValid` | routers/cats.py:65-67 | every handler keeps every stored cat's breed in the loaded list |
| `Lifecycle.RunKeepsBreedsValid` | routers/cats.py:65-67 | for one process, with the breed list it loaded at startup, any sequence of requests keeps every stored cat's breed in that list |
| `Lifecycle.StepNoReversal` | routers/missions.py:151-158 | no handler sets a complete mission back to incomplete or clears a mission's cat |
| `Lifecycle.StepKeepsAllAssigned` | routers/missions.py:84-94 | once every mission names a cat, every handler keeps it so and no mission disappears |
| `Lifecycle.RunProgress` | routers/missions.py:128 | along any run from a database where every mission names a cat, no mission disappears, is reopened or loses its cat |
| `Lifecycle.Reachable` | models.py:13-31 | every database reachable from an empty one within one process is well formed, has only breeds from the list that process loaded at startup, and has a cat on every mission |
| `Lifecycle.NoMissionIsEverDeleted` | routers/missions.py:84-94 | since line 17 makes the cat id mandatory, deletion fails for every mission of every reachable database |
| `Lifecycle.AssignKeepsAtMostOneActive` | routers/missions.py:115-128 | if every cat has at most one uncompleted mission before an assignment, the same holds afterwards, with the scan order the model fixes |
| `Lifecycle.AssignInAnyScanOrderKeepsAtMostOneActive` | routers/missions.py:115-128 | for any scan order that visits every mission: when the first uncompleted mission of the cat found is none or the one being assigned, writing the cat keeps every cat at at most one uncompleted mission |
| `Lifecycle.UpdateTargetKeepsAtMostOneActive` | routers/missions.py:150-158 | a target update keeps every cat at at most one uncompleted mission |
| `Lifecycle.StepKeepsAtMostOneActive` | routers/missions.py:103-132 | every handler keeps every cat at at most one uncompleted mission, provided a created mission is for a cat without an uncompleted one |
| `Lifecycle.CreateMissionBreaksAtMostOneActive` | routers/missions.py:42-50 | creating a mission for a cat that already has an uncompleted mission succeeds and leaves the cat with two |
| `Behaviour.CompletingLastTargetCompletesMission` | routers/missions.py:151-158 | completing the last open target of a mission completes the mission |
| `Behaviour.ReopenedTargetKeepsMissionComplete` | routers/missions.py:148-158 | reopening a target of a complete mission leaves the mission complete while not all of its targets are |
| `Behaviour.CreatedTargetAt` | routers/missions.py:55-63 | the target stored under each new id carries the fields of the input at the matching position |
| `Behaviour.CreatedCompleteTargetsLeaveMissionOpen` | routers/missions.py:50-66 | a mission created with every target complete is stored incomplete |
| `Behaviour.EmptyUpdateThawsNotes` | routers/missions.py:140-148 | notes of a complete target are refused, but an update without fields nulls its flag, after which its notes can be written |
| `Behaviour.DefaultTargetsStartOpen` | routers/missions.py:10-14 | target inputs that give only a name and a country are stored with empty notes and an incomplete flag |
| `Behaviour.AssignConflictExactly` | routers/missions.py:115-125 | while every cat has at most one uncompleted mission, assignment fails CatAlreadyAssigned exactly when the cat has an uncompleted mission other than this one |
| `Behaviour.ReassignSameCatIsIdempotent` | routers/missions.py:121-132 | while every cat has at most one uncompleted mission, assigning a cat again to the uncompleted mission it holds succeeds and changes nothing |
| `Behaviour.ReassignLaterOpenMissionIsRefused` | routers/missions.py:115-128 | when a cat holds two uncompleted missions, assigning it to the later one is refused as already assigned |
| `Behaviour.DeleteCatLeavesDanglingReference` | models.py:16 | right after a cat is deleted, the missions that name it still do, and name no stored cat |
| `Behaviour.DeletedCatIdIsReused` | routers/cats.py:74-81 | when the deleted cat had the greatest id and the id just below it is still taken (or it was the only cat, id 1), the next created cat gets that id back, inherits its uncompleted mission, and is refused assignment to any other mission |
| `Behaviour.DeletedCatIdAcrossGap` | routers/cats.py:62-81 | a new cat gets one past the greatest remaining id: with cats 1 and 5, deleting 5 and creating a cat gives id 2, not 5 |
| `Behaviour.CreatedCatReadsBack` | routers/cats.py:62-72 | a created cat reads back as given and the listing grows by exactly that cat |
| `Behaviour.SalaryUpdateReadsBackAndRepeats` | routers/cats.py:50-60 | the next read sees the new salary, and repeating the update changes nothing further |
| `Behaviour.DeletedCatIsGone` | routers/cats.py:74-81 | after deletion the cat reads as NotFound, deleting it again fails, and the listing shrinks by one |
| `Behaviour.CreatedMissionReadsBack` | routers/missions.py:65-68 | the body returned by creation is what a read of the new mission returns |
| `Behaviour.AssignedMissionReadsBack` | routers/missions.py:127-132 | after assignment the mission reads back with the new cat and the targets it had |
| `Behaviour.RepeatedCompletingUpdateIsRefused` | routers/missions.py:140-148 | an update that writes notes and completes a target succeeds once and is refused when repeated |
| `Behaviour.TomSession` | routers/missions.py:39-98 | a three-request session: a Siamese cat is created as id 1, a one-target mission for it as id 1, completing the target completes the mission, and deleting the mission then fails MissionAssigned |

## Left out

- HTTP routing, status codes, dependency injection and CORS (main.py): each `HTTPException` is one `Error` constructor.
- Request and response validation by the schema library. Request shapes are Dafny types: `cat_id` is an `int`, and target notes are a string. An explicit null for notes at creation is not modelled. The response schema's `complete: bool` on a target (routers/missions.py:25, used in a mission's `targets` at line 36) rejects a null flag, and the model does not reproduce that rejection. Once an update without a flag has stored null (line 148), every response carrying that target becomes a server error. The four lines below say what each affected member returns instead.
- Missions.UpdateTarget: when the update carries no flag, the source answers with a server error after the write has been committed. The model returns Ok with the new state and the target.
- Missions.AssignCat: for a mission that owns a target with a null flag, the source answers with a server error after the new `cat_id` has been committed. The model returns Ok with the mission's view.
- Missions.GetMission: for a mission that owns a target with a null flag, the source answers with a server error, and nothing is written. The model returns Ok with the view, as does `Behaviour.AssignedMissionReadsBack`.
- Missions.ListMissions: if any stored target has a null flag, the source fails the whole listing with a server error. The model returns every view.
- Sessions, `commit`/`refresh`, the SQLite engine and table creation (database.py): the database is a value, and each handler is one atomic step.
- Restarts: the database file persists across processes (database.py:7) while the breed list is fetched again at every start (main.py:22-27), so a cat stored under one process may carry a breed missing from a later process's list. `Lifecycle.RunKeepsBreedsValid` and `Lifecycle.Reachable` speak of one process and the list it loaded.
- The startup fetch of the breed list over HTTP (main.py:18-30): the list is a parameter of `Cats.CreateCat`, and its emptiness means "not ready". `create_cat` reads the module-level list rather than its injected argument; the two are the same list, so the model uses one.
- Concurrency between requests: there is no locking, so a race between two assignments of the same cat is not modelled.
- The 64-bit limit on SQLite rowids: ids are unbounded integers.
- Cats.CreateCat: `experience` and `salary` are SQLite INTEGER columns (models.py:9, 11), while the request schema accepts any Python `int`. A value outside the signed 64-bit range fails when the row is written, the handler answers with a server error, and nothing is stored. The model stores the cat.
- Cats.UpdateCatSalary: a salary outside the signed 64-bit range fails the same way at the write and changes nothing. The model stores it.
- Missions.AssignCat: when the cat holds several uncompleted missions, `mid` among them, the outcome depends on which row `.first()` returns. The model fixes that to the least id, a scan in rowid order, and `Missions.AssignRefusesOnFirstRow` states the outcome in those terms. The contract of `AssignCat` itself states only what holds whatever the order, and the invariant-preserving lemmas do not depend on it.
- Missions.CreateMission: the contract does not restate that the response is the mission's view. `Behaviour.CreatedMissionReadsBack` states it instead.

=== FILE: behaviour.dfy ===
/** What the handlers promise across several calls, and the places where the
    rules their own checks describe are not kept: completion is evaluated
    only on target update and never undone, an update without a flag clears
    it, a created mission is never complete, and a deleted cat leaves its
    missions pointing at nothing until its id is handed to a new cat. */
module Behaviour {
  import opened Models
  import Keys
  import Cats
  import Missions
  import Lifecycle

  // ---------------------------------------------------------------------
  // Completion

  /** Completing the last open target of a mission completes the mission. */
  lemma CompletingLastTargetCompletesMission(s: State, tid: int, upd: Missions.TargetUpdate)
    requires tid in s.targets && s.targets[tid].missionId in s.missions
    requires upd.complete == Some(true)
    requires upd.notes.Some? ==> !Done(s.targets[tid])
    requires forall k :: k in TargetIds(s, s.targets[tid].missionId) && k != tid ==> Done(s.targets[k])
    ensures Missions.UpdateTarget(s, tid, upd).Ok?
    ensures Missions.UpdateTarget(s, tid, upd).value.state.missions[s.targets[tid].missionId].complete
  {
    var mid := s.targets[tid].missionId;
    var s' := Missions.UpdateTarget(s, tid, upd).value.state;
    forall k | k in TargetIds(s', mid)
      ensures Done(s'.targets[k])
    {
      if k != tid {
        assert s'.targets[k] == s.targets[k];
        assert k in TargetIds(s, mid);
      }
    }
    assert Missions.AllDone(s', mid);
  }

  /** Reopening a target of a complete mission leaves the mission complete,
      so the mission's flag no longer agrees with its targets: completion is
      only ever checked on the way up (routers/missions.py:154). */
  lemma ReopenedTargetKeepsMissionComplete(s: State, tid: int)
    requires tid in s.targets
    requires s.targets[tid].missionId in s.missions
    requires s.missions[s.targets[tid].missionId].complete
    ensures
      var r := Missions.UpdateTarget(s, tid, Missions.TargetUpdate(None, Some(false)));
      var mid := s.targets[tid].missionId;
      && r.Ok?
      && r.value.state.missions[mid].complete
      && !Missions.AllDone(r.value.state, mid)
  {
    var r := Missions.UpdateTarget(s, tid, Missions.TargetUpdate(None, Some(false)));
    var mid := s.targets[tid].missionId;
    assert tid in TargetIds(r.value.state, mid);
  }

  /** The row `create_mission` stores under id `k` is built from the input
      at position `k - base`. */
  lemma CreatedTargetAt(s: State, catId: int, inputs: seq<Missions.TargetInput>, k: int)
    requires Missions.CreateMission(s, catId, inputs).Ok?
    requires Keys.FreshId(s.targets.Keys) <= k < Keys.FreshId(s.targets.Keys) + |inputs|
    ensures 0 <= k - Keys.FreshId(s.targets.Keys) < |inputs|
    ensures
      var r := Missions.CreateMission(s, catId, inputs).value;
      r.state.targets[k] == Missions.NewTarget(r.value.id, inputs[k - Keys.FreshId(s.targets.Keys)])
  {
    var base := Keys.FreshId(s.targets.Keys);
    var i := k - base;
    var r := Missions.CreateMission(s, catId, inputs).value;
    assert r.state.targets[base + i] == Missions.NewTarget(r.value.id, inputs[i]);
  }

  /** A mission created with every target already complete is stored
      incomplete, and stays so until one of its targets is updated. */
  lemma CreatedCompleteTargetsLeaveMissionOpen(s: State, catId: int, inputs: seq<Missions.TargetInput>)
    requires Owned(s)
    requires catId in s.cats && 1 <= |inputs| <= 3
    requires forall i :: 0 <= i < |inputs| ==> inputs[i].complete
    ensures Missions.CreateMission(s, catId, inputs).Ok?
    ensures
      var r := Missions.CreateMission(s, catId, inputs).value;
      && Missions.AllDone(r.state, r.value.id)
      && !r.state.missions[r.value.id].complete
  {
    var r := Missions.CreateMission(s, catId, inputs).value;
    var mid := r.value.id;
    Lifecycle.CreateMissionOwnership(s, catId, inputs);
    forall k | k in TargetIds(r.state, mid)
      ensures Done(r.state.targets[k])
    {
      CreatedTargetAt(s, catId, inputs, k);
    }
  }

  // ---------------------------------------------------------------------
  // The completion flag is overwritten by every update

  /** An update that carries neither notes nor a flag turns a complete
      target into one whose flag is null, which reads as incomplete; its
      notes can then be rewritten, so the freeze on notes does not hold. */
  lemma EmptyUpdateThawsNotes(s: State, tid: int, notes: string)
    requires tid in s.targets && Done(s.targets[tid])
    ensures Missions.UpdateTarget(s, tid, Missions.TargetUpdate(Some(notes), None)) == Err(TargetFrozen)
    ensures
      var r1 := Missions.UpdateTarget(s, tid, Missions.TargetUpdate(None, None));
      && r1.Ok?
      && r1.value.state.targets[tid].complete == None
      && !Done(r1.value.state.targets[tid])
      && var r2 := Missions.UpdateTarget(r1.value.state, tid, Missions.TargetUpdate(Some(notes), None));
      && r2.Ok?
      && r2.value.state.targets[tid].notes == notes
  {
    var r1 := Missions.UpdateTarget(s, tid, Missions.TargetUpdate(None, None));
    assert tid in r1.value.state.targets;
  }

  /** Target inputs that give only a name and a country are stored with
      empty notes and an incomplete flag. */
  lemma DefaultTargetsStartOpen(s: State, catId: int, inputs: seq<Missions.TargetInput>)
    requires catId in s.cats && 1 <= |inputs| <= 3
    requires forall i :: 0 <= i < |inputs| ==>
      inputs[i] == Missions.DefaultTargetInput(inputs[i].name, inputs[i].country)
    ensures Missions.CreateMission(s, catId, inputs).Ok?
    ensures
      var r := Missions.CreateMission(s, catId, inputs).value;
      forall k :: k in r.state.targets && k !in s.targets ==>
        r.state.targets[k].notes == "" && !Done(r.state.targets[k])
  {
    var r := Missions.CreateMission(s, catId, inputs).value;
    forall k | k in r.state.targets && k !in s.targets
      ensures r.state.targets[k].notes == "" && !Done(r.state.targets[k])
    {
      CreatedTargetAt(s, catId, inputs, k);
    }
  }

  // ---------------------------------------------------------------------
  // Assignment

  /** Where every cat has at most one uncompleted mission, assignment fails
      with CatAlreadyAssigned exactly when the cat has an uncompleted
      mission other than the one being assigned. */
  lemma AssignConflictExactly(s: State, mid: int, cid: int)
    requires Lifecycle.AtMostOneActive(s)
    requires mid in s.missions && cid in s.cats
    ensures Missions.AssignCat(s, mid, cid) == Err(CatAlreadyAssigned)
        <==> exists m :: m in Missions.Active(s, cid) && m != mid
  {
    if m :| m in Missions.Active(s, cid) && m != mid {
      assert mid !in Missions.Active(s, cid);
    }
  }

  /** While every cat has at most one uncompleted mission, assigning a cat
      again to the uncompleted mission it already holds succeeds and changes
      nothing. */
  lemma ReassignSameCatIsIdempotent(s: State, mid: int, cid: int)
    requires Lifecycle.AtMostOneActive(s)
    requires mid in s.missions && cid in s.cats
    requires s.missions[mid].catId == Some(cid) && !s.missions[mid].complete
    ensures Missions.AssignCat(s, mid, cid) == Ok(Reply(s, View(s, mid)))
  {
    assert mid in Missions.Active(s, cid);
    forall m | m in Missions.Active(s, cid)
      ensures m == mid
    {
    }
    assert s.missions[mid := s.missions[mid].(catId := Some(cid))] == s.missions;
  }

  /** Once `create_mission` has given a cat a second uncompleted mission,
      re-assigning the cat to the later of the two is refused: the conflict
      query finds the earlier one first. */
  lemma ReassignLaterOpenMissionIsRefused(s: State, cid: int, m1: int, m2: int)
    requires cid in s.cats
    requires m1 in Missions.Active(s, cid) && m2 in Missions.Active(s, cid)
    requires m1 < m2
    ensures Missions.AssignCat(s, m2, cid) == Err(CatAlreadyAssigned)
  {
    assert Keys.Least(Missions.Active(s, cid)) <= m1;
  }

  // ---------------------------------------------------------------------
  // Cats

  /** Deleting a cat keeps the missions that name it, which then name a
      cat that does not exist. */
  lemma DeleteCatLeavesDanglingReference(s: State, cid: int, mid: int)
    requires cid in s.cats && mid in s.missions && s.missions[mid].catId == Some(cid)
    ensures
      var r := Cats.DeleteCat(s, cid);
      && r.Ok?
      && cid !in r.value.state.cats
      && r.value.state.missions[mid].catId == Some(cid)
  {
  }

  /** The reference need not stay dangling. A new cat gets one past the
      greatest remaining id, so when the deleted cat had the greatest id and
      the id just below it is still taken (or it was the only cat, with id
      1), the next cat created gets the deleted id back. It then inherits the
      deleted cat's uncompleted mission and cannot be assigned to any other
      mission. */
  lemma DeletedCatIdIsReused(s: State, breeds: seq<string>, c: Cat, cid: int, mid: int)
    requires cid in s.cats && forall k :: k in s.cats ==> k <= cid
    requires cid - 1 in s.cats || (cid == 1 && s.cats.Keys == {1})
    requires c.breed in breeds
    requires mid in Missions.Active(s, cid)
    ensures
      var d := Cats.DeleteCat(s, cid);
      && d.Ok?
      && var r := Cats.CreateCat(d.value.state, breeds, c);
      && r.Ok?
      && r.value.value.0 == cid
      && mid in Missions.Active(r.value.state, cid)
      && forall m :: m in r.value.state.missions && m !in Missions.Active(r.value.state, cid) ==>
           Missions.AssignCat(r.value.state, m, cid) == Err(CatAlreadyAssigned)
  {
    var s1 := Cats.DeleteCat(s, cid).value.state;
    var rest := s1.cats.Keys;
    if rest != {} {
      var g := Keys.Greatest(rest);
      assert cid - 1 in rest;
      assert g == cid - 1;
    }
    var s2 := Cats.CreateCat(s1, breeds, c).value.state;
    assert s2.missions == s.missions;
    assert mid in Missions.Active(s2, cid);
  }

  /** Across a gap the id is not reused: with cats 1 and 5, deleting 5 and
      creating a cat gives the new cat id 2. */
  lemma DeletedCatIdAcrossGap(breeds: seq<string>)
    requires Tom.breed in breeds
    ensures
      var s := State(map[1 := Tom, 5 := Tom], map[], map[]);
      var d := Cats.DeleteCat(s, 5);
      && d.Ok?
      && var r := Cats.CreateCat(d.value.state, breeds, Tom);
      && r.Ok?
      && r.value.value.0 == 2
  {
    var s := State(map[1 := Tom, 5 := Tom], map[], map[]);
    var s1 := Cats.DeleteCat(s, 5).value.state;
    assert s1.cats.Keys == {1};
  }

  // ---------------------------------------------------------------------
  // What a later read sees

  /** A created cat reads back as it was given, and the listing holds it. */
  lemma CreatedCatReadsBack(s: State, breeds: seq<string>, c: Cat)
    requires c.breed in breeds
    ensures Cats.CreateCat(s, breeds, c).Ok?
    ensures
      var r := Cats.CreateCat(s, breeds, c).value;
      && Cats.ReadCat(r.state, r.value.0) == Ok((r.value.0, c))
      && (r.value.0, c) in Cats.ListCats(r.state)
      && |Cats.ListCats(r.state)| == |Cats.ListCats(s)| + 1
  {
  }

  /** A salary update is seen by the next read, and repeating it changes
      nothing further. */
  lemma SalaryUpdateReadsBackAndRepeats(s: State, id: int, salary: int)
    requires id in s.cats
    ensures
      var r := Cats.UpdateCatSalary(s, id, salary);
      && r.Ok?
      && Cats.ReadCat(r.value.state, id) == Ok(r.value.value)
      && r.value.value.1.salary == salary
      && Cats.UpdateCatSalary(r.value.state, id, salary) == r
  {
    var r := Cats.UpdateCatSalary(s, id, salary);
    assert r.value.state.cats[id := r.value.value.1] == r.value.state.cats;
  }

  /** A deleted cat is gone for every later read, and deleting it again
      fails. */
  lemma DeletedCatIsGone(s: State, id: int)
    requires id in s.cats
    ensures
      var r := Cats.DeleteCat(s, id);
      && r.Ok?
      && Cats.ReadCat(r.value.state, id) == Err(NotFound)
      && Cats.DeleteCat(r.value.state, id) == Err(NotFound)
      && |Cats.ListCats(r.value.state)| == |Cats.ListCats(s)| - 1
  {
  }

  /** The body `create_mission` answers with is what `get_mission` returns
      for the new id straight afterwards. */
  lemma CreatedMissionReadsBack(s: State, catId: int, inputs: seq<Missions.TargetInput>)
    requires Missions.CreateMission(s, catId, inputs).Ok?
    ensures
      var r := Missions.CreateMission(s, catId, inputs).value;
      Missions.GetMission(r.state, r.value.id) == Ok(r.value)
  {
  }

  /** After an assignment the mission reads back with the new cat. */
  lemma AssignedMissionReadsBack(s: State, mid: int, cid: int)
    requires Missions.AssignCat(s, mid, cid).Ok?
    ensures
      var r := Missions.AssignCat(s, mid, cid).value;
      && Missions.GetMission(r.state, mid) == Ok(r.value)
      && r.value.catId == Some(cid)
      && r.value.targets == TargetsOf(s, mid)
  {
    var s' := Missions.AssignCat(s, mid, cid).value.state;
    assert TargetIds(s', mid) == TargetIds(s, mid);
  }

  /** Sending the same update twice is not harmless: an update that writes
      notes and completes the target succeeds once and is refused the second
      time, because the target is then complete. */
  lemma RepeatedCompletingUpdateIsRefused(s: State, tid: int, notes: string)
    requires tid in s.targets && !Done(s.targets[tid])
    ensures
      var upd := Missions.TargetUpdate(Some(notes), Some(true));
      var r := Missions.UpdateTarget(s, tid, upd);
      && r.Ok?
      && Missions.UpdateTarget(r.value.state, tid, upd) == Err(TargetFrozen)
  {
  }

  // ---------------------------------------------------------------------
  // A whole session

  const Tom: Cat := Cat("Tom", 2, "Siamese", 1000)

  /** A cat is created, given a one-target mission, and the target is
      completed: the mission becomes complete, keeps its cat, and therefore
      cannot be deleted. */
  lemma TomSession()
    ensures
      var c := Cats.CreateCat(Empty, ["Siamese"], Tom);
      && c.Ok? && c.value.value.0 == 1
      && var m := Missions.CreateMission(c.value.state, 1, [Missions.DefaultTargetInput("T1", "FR")]);
      && m.Ok? && m.value.value.id == 1 && !m.value.value.complete
      && var u := Missions.UpdateTarget(m.value.state, 1, Missions.TargetUpdate(None, Some(true)));
      && u.Ok? && u.value.state.missions[1].complete
      && Missions.DeleteMission(u.value.state, 1) == Err(MissionAssigned)
  {
    var c := Cats.CreateCat(Empty, ["Siamese"], Tom);
    var s1 := c.value.state;
    var m := Missions.CreateMission(s1, 1, [Missions.DefaultTargetInput("T1", "FR")]);
    var s2 := m.value.state;
    assert s2.targets[1] == Missions.NewTarget(1, Missions.DefaultTargetInput("T1", "FR"));
    assert s2.targets.Keys == {1};
    CompletingLastTargetCompletesMission(s2, 1, Missions.TargetUpdate(None, Some(true)));
  }
}

=== FILE: cats.dfy ===
/** The cat handlers (routers/cats.py): the breed check at creation, the
    salary update, deletion and the two reads. `breeds` is the list fetched
    once at startup; while it is empty the service is not ready. */
module Cats {
  import opened Models
  import Keys

  /** The readiness dependency `get_valid_breeds`: the breed list, or
      NotReady while nothing has been loaded. */
  function ValidBreeds(breeds: seq<string>): (r: Result<seq<string>>)
    ensures r.Err? <==> |breeds| == 0
    ensures r.Err? ==> r.error == NotReady
    ensures r.Ok? ==> r.value == breeds
  {
    if |breeds| == 0 then Err(NotReady) else Ok(breeds)
  }

  /** `create_cat`: the readiness dependency runs first, then the breed
      check; a cat that passes both is stored under a fresh id exactly as
      given. */
  function CreateCat(s: State, breeds: seq<string>, c: Cat): (r: Result<Reply<(int, Cat)>>)
    ensures |breeds| == 0 ==> r == Err(NotReady)
    ensures |breeds| > 0 && c.breed !in breeds ==> r == Err(InvalidBreed)
    ensures r.Ok? <==> |breeds| > 0 && c.breed in breeds
    ensures r.Ok? ==>
      var (id, stored) := r.value.value;
      && id !in s.cats
      && stored == c
      && stored.breed in breeds
      && r.value.state == s.(cats := s.cats[id := c])
  {
    match ValidBreeds(breeds)
    case Err(e) => Err(e)
    case Ok(valid) =>
      if c.breed !in valid then Err(InvalidBreed)
      else
        var id := Keys.FreshId(s.cats.Keys);
        Ok(Reply(s.(cats := s.cats[id := c]), (id, c)))
  }

  /** `update_cat_salary`: overwrites the salary of an existing cat and
      touches nothing else; the response is the updated record with its id. */
  function UpdateCatSalary(s: State, id: int, salary: int): (r: Result<Reply<(int, Cat)>>)
    ensures r.Err? <==> id !in s.cats
    ensures r.Err? ==> r.error == NotFound
    ensures r.Ok? ==>
      var (rid, c) := r.value.value;
      && rid == id
      && c.salary == salary
      && c == s.cats[id].(salary := salary)
      && r.value.state.cats.Keys == s.cats.Keys
      && r.value.state.cats[id] == c
      && (forall k :: k in s.cats && k != id ==> r.value.state.cats[k] == s.cats[k])
      && r.value.state.missions == s.missions
      && r.value.state.targets == s.targets
  {
    if id !in s.cats then Err(NotFound)
    else
      var c := s.cats[id].(salary := salary);
      Ok(Reply(s.(cats := s.cats[id := c]), (id, c)))
  }

  /** `delete_cat`: removes an existing cat unconditionally. Missions that
      name it keep their `cat_id`, which then refers to no cat until a new
      cat is given the same id: when the deleted id was the greatest, the
      next `create_cat` may reuse it, and that cat inherits the missions. */
  function DeleteCat(s: State, id: int): (r: Result<Reply<()>>)
    ensures r.Err? <==> id !in s.cats
    ensures r.Err? ==> r.error == NotFound
    ensures r.Ok? ==>
      && r.value.state.cats.Keys == s.cats.Keys - {id}
      && (forall k :: k in r.value.state.cats ==> r.value.state.cats[k] == s.cats[k])
      && r.value.state.missions == s.missions
      && r.value.state.targets == s.targets
  {
    if id !in s.cats then Err(NotFound)
    else Ok(Reply(s.(cats := s.cats - {id}), ()))
  }

  /** `read_cat`: the stored record, or NotFound. */
  function ReadCat(s: State, id: int): (r: Result<(int, Cat)>)
    ensures r.Err? <==> id !in s.cats
    ensures r.Err? ==> r.error == NotFound
    ensures r.Ok? ==> r.value.0 == id && r.value.1 == s.cats[id]
  {
    if id !in s.cats then Err(NotFound) else Ok((id, s.cats[id]))
  }

  /** `list_cats`: every stored cat once, in id order. */
  function ListCats(s: State): (r: seq<(int, Cat)>)
    ensures |r| == |s.cats.Keys|
    ensures forall i :: 0 <= i < |r| ==> r[i].0 in s.cats && r[i].1 == s.cats[r[i].0]
    ensures forall k :: k in s.cats ==> (k, s.cats[k]) in r
    ensures forall i, j :: 0 <= i < j < |r| ==> r[i].0 < r[j].0
  {
    Keys.Rows(s.cats)
  }
}

=== FILE: keys.dfy ===
/** Integer primary keys of a table: the least and greatest key, the id the
    store hands to the next inserted row, and a table's rows in key order.

    Every table of the service has an `Integer` primary key (models.py:7, 15,
    24) and is stored in SQLite, which gives a row inserted without an id the
    rowid one larger than the largest rowid in the table, or 1 when the table
    is empty. A query without ORDER BY has no order SQLite guarantees; a
    full-table scan visits rows in rowid order, and the model fixes that
    order for every listing and every `.first()`. */
module Keys {

  /** The integers `lo`, `lo + 1`, ..., `lo + n - 1`: the ids of `n` rows
      inserted one after another when the first gets `lo`. */
  function Range(lo: int, n: nat): (r: set<int>)
    ensures forall k :: k in r <==> lo <= k < lo + n
    ensures |r| == n
  {
    if n == 0 then {} else Range(lo, n - 1) + {lo + n - 1}
  }

  /** A set that is not empty has a member. */
  lemma NonEmptyHasMember(s: set<int>)
    requires s != {}
    ensures exists x :: x in s
  {
    if forall x :: x !in s {
      assert false;
    }
  }

  /** A least element of a non-empty finite set of integers, found by
      removing one member and comparing it with the least of the rest. */
  lemma {:induction false} LeastOf(s: set<int>) returns (m: int)
    requires s != {}
    ensures m in s
    ensures forall y :: y in s ==> m <= y
  {
    NonEmptyHasMember(s);
    var x :| x in s;
    var rest := s - {x};
    if rest == {} {
      m := x;
      forall y | y in s
        ensures m <= y
      {
        assert y !in rest;
      }
    } else {
      var least := LeastOf(rest);
      m := if x < least then x else least;
      forall y | y in s
        ensures m <= y
      {
        if y != x {
          assert y in rest;
        }
      }
    }
  }

  /** A greatest element of a non-empty finite set of integers. */
  lemma {:induction false} GreatestOf(s: set<int>) returns (m: int)
    requires s != {}
    ensures m in s
    ensures forall y :: y in s ==> y <= m
  {
    NonEmptyHasMember(s);
    var x :| x in s;
    var rest := s - {x};
    if rest == {} {
      m := x;
      forall y | y in s
        ensures y <= m
      {
        assert y !in rest;
      }
    } else {
      var greatest := GreatestOf(rest);
      m := if greatest < x then x else greatest;
      forall y | y in s
        ensures y <= m
      {
        if y != x {
          assert y in rest;
        }
      }
    }
  }

  lemma LeastExists(s: set<int>)
    requires s != {}
    ensures exists m :: m in s && forall y :: y in s ==> m <= y
  {
    var m := LeastOf(s);
  }

  lemma GreatestExists(s: set<int>)
    requires s != {}
    ensures exists m :: m in s && forall y :: y in s ==> y <= m
  {
    var m := GreatestOf(s);
  }

  /** The least key of a non-empty key set. */
  function Least(s: set<int>): (m: int)
    requires s != {}
    ensures m in s
    ensures forall y :: y in s ==> m <= y
  {
    LeastExists(s);
    var m :| m in s && forall y :: y in s ==> m <= y;
    m
  }

  /** The greatest key of a non-empty key set. */
  function Greatest(s: set<int>): (m: int)
    requires s != {}
    ensures m in s
    ensures forall y :: y in s ==> y <= m
  {
    GreatestExists(s);
    var m :| m in s && forall y :: y in s ==> y <= m;
    m
  }

  /** The id SQLite gives the next row inserted into a table whose ids are
      `used`: one past the largest, or 1 for an empty table. */
  function FreshId(used: set<int>): (id: int)
    ensures id !in used
    ensures forall k :: k in used ==> k < id
    ensures used == {} ==> id == 1
    ensures used != {} ==> id - 1 in used
  {
    if used == {} then 1 else Greatest(used) + 1
  }

  /** The ids of a table in the order the model fixes for a query without
      ORDER BY, the rowid order of a full-table scan: ascending, each id
      exactly once. */
  function SortedKeys(s: set<int>): (r: seq<int>)
    ensures |r| == |s|
    ensures forall i, j :: 0 <= i < j < |r| ==> r[i] < r[j]
    ensures forall i :: 0 <= i < |r| ==> r[i] in s
    ensures forall k :: k in s ==> k in r
    decreases s
  {
    if s == {} then []
    else
      var k := Least(s);
      [k] + SortedKeys(s - {k})
  }

  /** In a strictly increasing scan that visits every member of `a`, the
      first position holding a member of `a` holds its least member, and
      there is no such position exactly when `a` is empty. */
  lemma {:induction false} FirstMemberIsLeast(ids: seq<int>, a: set<int>, i: int)
    requires forall p, q :: 0 <= p < q < |ids| ==> ids[p] < ids[q]
    requires forall k :: k in a ==> k in ids
    requires 0 <= i <= |ids|
    requires forall j :: 0 <= j < i ==> ids[j] !in a
    requires i < |ids| ==> ids[i] in a
    ensures i == |ids| <==> a == {}
    ensures i < |ids| ==> a != {} && ids[i] == Least(a)
  {
    if a != {} {
      var least := Least(a);
      var j :| 0 <= j < |ids| && ids[j] == least;
      assert i <= j;
    }
  }

  /** The rows of `m` with the ids `ks`, in the order of `ks`. */
  function RowsAt<V>(m: map<int, V>, ks: seq<int>): (r: seq<(int, V)>)
    requires forall i :: 0 <= i < |ks| ==> ks[i] in m
    ensures |r| == |ks|
    ensures forall i :: 0 <= i < |r| ==> r[i].0 == ks[i] && r[i].1 == m[ks[i]]
    ensures forall k :: k in ks ==> k in m && (k, m[k]) in r
  {
    if ks == [] then []
    else
      var rest := RowsAt(m, ks[1..]);
      assert forall k :: k in ks && k != ks[0] ==> k in ks[1..];
      [(ks[0], m[ks[0]])] + rest
  }

  /** The rows of a table in the fixed scan order, each paired with its id. */
  function Rows<V>(m: map<int, V>): (r: seq<(int, V)>)
    ensures |r| == |m.Keys|
    ensures forall i, j :: 0 <= i < j < |r| ==> r[i].0 < r[j].0
    ensures forall i :: 0 <= i < |r| ==> r[i].0 in m && r[i].1 == m[r[i].0]
    ensures forall k :: k in m ==> (k, m[k]) in r
  {
    RowsAt(m, SortedKeys(m.Keys))
  }
}

=== FILE: lifecycle.dfy ===
/** The service as a state machine: a request is one call of a handler that
    can change the database, and a run is a sequence of requests handled one
    after another, each as one atomic step. This module states the
    invariants every step keeps. */
module Lifecycle {
  import opened Models
  import Keys
  import Cats
  import Missions

  /** The handlers that may write to the database. The reads never do. */
  datatype Request =
    | CreateCatRequest(cat: Cat)
    | UpdateSalaryRequest(catId: int, salary: int)
    | DeleteCatRequest(catId: int)
    | CreateMissionRequest(catId: int, inputs: seq<Missions.TargetInput>)
    | DeleteMissionRequest(missionId: int)
    | AssignRequest(missionId: int, catId: int)
    | UpdateTargetRequest(targetId: int, update: Missions.TargetUpdate)

  /** The database after a handler: its new state on success, the old one
      on failure, since every check precedes every write. */
  function After<V>(s: State, r: Result<Reply<V>>): State
  {
    if r.Ok? then r.value.state else s
  }

  /** One request against database `s`, with the breed list loaded at
      startup. */
  function Apply(s: State, breeds: seq<string>, q: Request): State
  {
    match q
    case CreateCatRequest(c) => After(s, Cats.CreateCat(s, breeds, c))
    case UpdateSalaryRequest(id, salary) => After(s, Cats.UpdateCatSalary(s, id, salary))
    case DeleteCatRequest(id) => After(s, Cats.DeleteCat(s, id))
    case CreateMissionRequest(cid, inputs) => After(s, Missions.CreateMission(s, cid, inputs))
    case DeleteMissionRequest(mid) => After(s, Missions.DeleteMission(s, mid))
    case AssignRequest(mid, cid) => After(s, Missions.AssignCat(s, mid, cid))
    case UpdateTargetRequest(tid, upd) => After(s, Missions.UpdateTarget(s, tid, upd))
  }

  /** The requests `qs` handled in order. */
  function Run(s: State, breeds: seq<string>, qs: seq<Request>): State
    decreases |qs|
  {
    if qs == [] then s else Run(Apply(s, breeds, qs[0]), breeds, qs[1..])
  }

  // ---------------------------------------------------------------------
  // Ownership: every target belongs to a stored mission with 1..3 targets

  /** Adding mission `mid` together with the targets `added`, all bound to
      it, gives `mid` exactly those targets and leaves the others' alone. */
  lemma {:induction false} AddMissionOwnership(s: State, s': State, mid: int, added: set<int>)
    requires Owned(s)
    requires mid !in s.missions
    requires forall m :: m in s'.missions <==> m in s.missions || m == mid
    requires forall k :: k in s'.targets <==> k in s.targets || k in added
    requires forall k :: k in s.targets ==> k !in added && s'.targets[k] == s.targets[k]
    requires forall k :: k in added ==> s'.targets[k].missionId == mid
    ensures TargetIds(s', mid) == added
    ensures forall m :: m in s.missions ==> TargetIds(s', m) == TargetIds(s, m)
    ensures Owned(s')
  {
    forall k | k in TargetIds(s', mid)
      ensures k in added
    {
    }
    forall k | k in added
      ensures k in TargetIds(s', mid)
    {
    }
    assert TargetIds(s', mid) == added;
    forall m | m in s.missions
      ensures TargetIds(s', m) == TargetIds(s, m)
    {
      forall k | k in TargetIds(s', m)
        ensures k in TargetIds(s, m)
      {
      }
      forall k | k in TargetIds(s, m)
        ensures k in TargetIds(s', m)
      {
        assert s'.targets[k] == s.targets[k];
      }
    }
  }

  /** A created mission owns exactly the targets created with it, and the
      other missions keep the targets they had. */
  lemma {:induction false} CreateMissionOwnership(s: State, catId: int, inputs: seq<Missions.TargetInput>)
    requires Owned(s)
    requires Missions.CreateMission(s, catId, inputs).Ok?
    ensures
      var r := Missions.CreateMission(s, catId, inputs).value;
      var mid := r.value.id;
      && TargetIds(r.state, mid) == Keys.Range(Keys.FreshId(s.targets.Keys), |inputs|)
      && |TargetIds(r.state, mid)| == |inputs|
      && (forall m :: m in s.missions ==> TargetIds(r.state, m) == TargetIds(s, m))
      && Owned(r.state)
  {
    var r := Missions.CreateMission(s, catId, inputs).value;
    var added := Keys.Range(Keys.FreshId(s.targets.Keys), |inputs|);
    AddMissionOwnership(s, r.state, r.value.id, added);
  }

  lemma CreateMissionKeepsWellFormed(s: State, catId: int, inputs: seq<Missions.TargetInput>)
    requires WellFormed(s)
    ensures WellFormed(After(s, Missions.CreateMission(s, catId, inputs)))
  {
    var r := Missions.CreateMission(s, catId, inputs);
    if r.Ok? {
      CreateMissionOwnership(s, catId, inputs);
      var s' := r.value.state;
      forall m | m in s'.missions
        ensures 1 <= |TargetIds(s', m)| <= 3
      {
        if m in s.missions {
          assert TargetIds(s', m) == TargetIds(s, m);
        }
      }
    }
  }

  /** Deleting a mission takes its targets with it and leaves every other
      mission's targets alone. */
  lemma {:induction false} DeleteMissionKeepsWellFormed(s: State, mid: int)
    requires WellFormed(s)
    ensures WellFormed(After(s, Missions.DeleteMission(s, mid)))
  {
    var r := Missions.DeleteMission(s, mid);
    if r.Ok? {
      var s' := r.value.state;
      forall m | m in s'.missions
        ensures TargetIds(s', m) == TargetIds(s, m)
      {
        assert m != mid;
      }
      assert TargetCountsInRange(s');
    }
  }

  /** A target update never moves a target to another mission. */
  lemma {:induction false} UpdateTargetKeepsWellFormed(s: State, tid: int, upd: Missions.TargetUpdate)
    requires WellFormed(s)
    ensures WellFormed(After(s, Missions.UpdateTarget(s, tid, upd)))
  {
    var r := Missions.UpdateTarget(s, tid, upd);
    if r.Ok? {
      var s' := r.value.state;
      forall m | m in s'.missions
        ensures TargetIds(s', m) == TargetIds(s, m)
      {
      }
      assert TargetCountsInRange(s');
    }
  }

  /** Every request keeps the ownership invariant. */
  lemma {:induction false} StepKeepsWellFormed(s: State, breeds: seq<string>, q: Request)
    requires WellFormed(s)
    ensures WellFormed(Apply(s, breeds, q))
  {
    match q
    case CreateCatRequest(c) =>
    case UpdateSalaryRequest(id, salary) =>
    case DeleteCatRequest(id) =>
    case CreateMissionRequest(cid, inputs) => CreateMissionKeepsWellFormed(s, cid, inputs);
    case DeleteMissionRequest(mid) => DeleteMissionKeepsWellFormed(s, mid);
    case AssignRequest(mid, cid) =>
      var r := Missions.AssignCat(s, mid, cid);
      if r.Ok? {
        forall m | m in r.value.state.missions
          ensures TargetIds(r.value.state, m) == TargetIds(s, m)
        {
        }
      }
    case UpdateTargetRequest(tid, upd) => UpdateTargetKeepsWellFormed(s, tid, upd);
  }

  /** Any run keeps the ownership invariant; in particular every mission
      keeps between one and three targets for its whole life. */
  lemma {:induction false} RunKeepsWellFormed(s: State, breeds: seq<string>, qs: seq<Request>)
    requires WellFormed(s)
    ensures WellFormed(Run(s, breeds, qs))
    decreases |qs|
  {
    if qs != [] {
      StepKeepsWellFormed(s, breeds, qs[0]);
      RunKeepsWellFormed(Apply(s, breeds, qs[0]), breeds, qs[1..]);
    }
  }

  // ---------------------------------------------------------------------
  // Breeds: every stored cat has a breed from the loaded list

  ghost predicate BreedsValid(s: State, breeds: seq<string>)
  {
    forall c :: c in s.cats ==> s.cats[c].breed in breeds
  }

  /** Only `create_cat` adds a cat, and it checks the breed; a salary
      update keeps the breed. */
  lemma StepKeepsBreedsValid(s: State, breeds: seq<string>, q: Request)
    requires BreedsValid(s, breeds)
    ensures BreedsValid(Apply(s, breeds, q), breeds)
  {
    var s1 := Apply(s, breeds, q);
    if q.UpdateSalaryRequest? {
      assert forall c :: c in s1.cats ==> s1.cats[c].breed == s.cats[c].breed;
    }
  }

  lemma {:induction false} RunKeepsBreedsValid(s: State, breeds: seq<string>, qs: seq<Request>)
    requires BreedsValid(s, breeds)
    ensures BreedsValid(Run(s, breeds, qs), breeds)
    decreases |qs|
  {
    if qs != [] {
      StepKeepsBreedsValid(s, breeds, qs[0]);
      RunKeepsBreedsValid(Apply(s, breeds, qs[0]), breeds, qs[1..]);
    }
  }

  // ---------------------------------------------------------------------
  // Assignment: nothing ever clears a mission's cat

  /** Every mission names a cat. */
  ghost predicate AllAssigned(s: State)
  {
    forall m :: m in s.missions ==> s.missions[m].catId.Some?
  }

  /** No step clears a mission's `cat_id` or reopens a complete mission. */
  ghost predicate NoReversal(s: State, s': State)
  {
    forall m :: m in s.missions && m in s'.missions ==>
      && (s.missions[m].complete ==> s'.missions[m].complete)
      && (s.missions[m].catId.Some? ==> s'.missions[m].catId.Some?)
  }

  lemma {:induction false} StepNoReversal(s: State, breeds: seq<string>, q: Request)
    ensures NoReversal(s, Apply(s, breeds, q))
  {
    match q
    case UpdateTargetRequest(tid, upd) =>
      var r := Missions.UpdateTarget(s, tid, upd);
      if r.Ok? {
        var mid := s.targets[tid].missionId;
        forall m | m in s.missions && m in r.value.state.missions
          ensures s.missions[m].complete ==> r.value.state.missions[m].complete
          ensures s.missions[m].catId.Some? ==> r.value.state.missions[m].catId.Some?
        {
          if m != mid {
            assert r.value.state.missions[m] == s.missions[m];
          }
        }
      }
    case _ =>
  }

  /** Once every mission names a cat, every step keeps it so, and a mission
      can no longer be deleted. */
  lemma {:induction false} StepKeepsAllAssigned(s: State, breeds: seq<string>, q: Request)
    requires AllAssigned(s)
    ensures AllAssigned(Apply(s, breeds, q))
    ensures s.missions.Keys <= Apply(s, breeds, q).missions.Keys
  {
    StepNoReversal(s, breeds, q);
    match q
    case UpdateTargetRequest(tid, upd) =>
      var r := Missions.UpdateTarget(s, tid, upd);
      if r.Ok? {
        var s' := r.value.state;
        forall m | m in s'.missions
          ensures s'.missions[m].catId.Some?
        {
          assert m in s.missions;
        }
      }
    case _ =>
  }

  /** What a run never undoes, from a database where every mission names a
      cat: no mission disappears, none is reopened, none loses its cat. */
  ghost predicate Progress(s: State, s': State)
  {
    s.missions.Keys <= s'.missions.Keys && NoReversal(s, s')
  }

  lemma {:induction false} RunProgress(s: State, breeds: seq<string>, qs: seq<Request>)
    requires AllAssigned(s)
    ensures AllAssigned(Run(s, breeds, qs))
    ensures Progress(s, Run(s, breeds, qs))
    decreases |qs|
  {
    if qs != [] {
      var s1 := Apply(s, breeds, qs[0]);
      StepKeepsAllAssigned(s, breeds, qs[0]);
      StepNoReversal(s, breeds, qs[0]);
      RunProgress(s1, breeds, qs[1..]);
    }
  }

  /** Every database the service can reach from an empty one: every target
      belongs to a mission with one to three targets, every cat's breed is in
      the loaded list, and every mission names a cat. */
  lemma Reachable(breeds: seq<string>, qs: seq<Request>)
    ensures WellFormed(Run(Empty, breeds, qs))
    ensures BreedsValid(Run(Empty, breeds, qs), breeds)
    ensures AllAssigned(Run(Empty, breeds, qs))
  {
    RunKeepsWellFormed(Empty, breeds, qs);
    RunKeepsBreedsValid(Empty, breeds, qs);
    RunProgress(Empty, breeds, qs);
  }

  /** Because a mission is always created with a cat and nothing clears
      `cat_id`, `delete_mission` fails on every database reachable from an
      empty one. */
  lemma NoMissionIsEverDeleted(breeds: seq<string>, qs: seq<Request>, mid: int)
    ensures Missions.DeleteMission(Run(Empty, breeds, qs), mid).Err?
  {
    Reachable(breeds, qs);
  }

  // ---------------------------------------------------------------------
  // At most one uncompleted mission per cat

  ghost predicate AtMostOneActive(s: State)
  {
    forall c, m1, m2 ::
      m1 in Missions.Active(s, c) && m2 in Missions.Active(s, c) ==> m1 == m2
  }

  /** The conflict check of `assign_cat_to_mission`, with the scan order the
      model fixes, keeps the invariant; the argument uses only facts of
      `AssignCat`'s contract that hold in any order, and
      `AssignInAnyScanOrderKeepsAtMostOneActive` states it for every order. */
  lemma {:induction false} AssignKeepsAtMostOneActive(s: State, mid: int, cid: int)
    requires AtMostOneActive(s)
    ensures AtMostOneActive(After(s, Missions.AssignCat(s, mid, cid)))
  {
    var r := Missions.AssignCat(s, mid, cid);
    if r.Ok? {
      var s' := r.value.state;
      // Whatever the scan order, success means the cat had no uncompleted
      // mission other than this one.
      forall m | m in Missions.Active(s, cid)
        ensures m == mid
      {
      }
      forall c, m | m in Missions.Active(s', c)
        ensures m in Missions.Active(s, c) || (m == mid && c == cid)
      {
        if m != mid {
          assert s'.missions[m] == s.missions[m];
        }
      }
    }
  }

  /** Assignment keeps the invariant whatever order the conflict query
      scans the missions in: for any scan `ids` that visits every mission,
      when the first uncompleted mission of the cat it finds is none or the
      mission being assigned, writing the cat keeps every cat at at most one
      uncompleted mission. */
  lemma {:induction false} AssignInAnyScanOrderKeepsAtMostOneActive(s: State, mid: int, cid: int, ids: seq<int>)
    requires AtMostOneActive(s)
    requires mid in s.missions
    requires forall k :: k in s.missions ==> k in ids
    requires
      var i := Missions.FirstActiveAt(s, cid, ids);
      i == |ids| || ids[i] == mid
    ensures AtMostOneActive(s.(missions := s.missions[mid := s.missions[mid].(catId := Some(cid))]))
  {
    var s' := s.(missions := s.missions[mid := s.missions[mid].(catId := Some(cid))]);
    var i := Missions.FirstActiveAt(s, cid, ids);
    forall m | m in Missions.Active(s, cid)
      ensures m == mid
    {
      var j :| 0 <= j < |ids| && ids[j] == m;
      assert i <= j;
      assert ids[i] in Missions.Active(s, cid);
    }
    forall c, m | m in Missions.Active(s', c)
      ensures m in Missions.Active(s, c) || (m == mid && c == cid)
    {
      if m != mid {
        assert s'.missions[m] == s.missions[m];
      }
    }
  }

  /** Completion only ever removes a mission from its cat's uncompleted
      ones. */
  lemma {:induction false} UpdateTargetKeepsAtMostOneActive(s: State, tid: int, upd: Missions.TargetUpdate)
    requires AtMostOneActive(s)
    ensures AtMostOneActive(After(s, Missions.UpdateTarget(s, tid, upd)))
  {
    var r := Missions.UpdateTarget(s, tid, upd);
    if r.Ok? {
      var s' := r.value.state;
      var mid := s.targets[tid].missionId;
      forall c, m | m in Missions.Active(s', c)
        ensures m in Missions.Active(s, c)
      {
        if m != mid {
          assert s'.missions[m] == s.missions[m];
        }
      }
    }
  }

  /** Every request keeps the invariant except a mission created for a cat
      that already has an uncompleted one, which `create_mission` never
      checks for. */
  lemma {:induction false} StepKeepsAtMostOneActive(s: State, breeds: seq<string>, q: Request)
    requires AtMostOneActive(s)
    requires q.CreateMissionRequest? ==> Missions.Active(s, q.catId) == {}
    ensures AtMostOneActive(Apply(s, breeds, q))
  {
    match q
    case CreateMissionRequest(cid, inputs) =>
      var r := Missions.CreateMission(s, cid, inputs);
      if r.Ok? {
        var s' := r.value.state;
        var mid := r.value.value.id;
        forall c, m | m in Missions.Active(s', c) && m != mid
          ensures m in Missions.Active(s, c)
        {
          assert s'.missions[m] == s.missions[m];
        }
        forall c, m1, m2 | m1 in Missions.Active(s', c) && m2 in Missions.Active(s', c)
          ensures m1 == m2
        {
          if m1 != mid && m2 != mid {
            assert m1 in Missions.Active(s, c) && m2 in Missions.Active(s, c);
          }
        }
      }
    case DeleteMissionRequest(mid) =>
      var r := Missions.DeleteMission(s, mid);
      if r.Ok? {
        forall c, m | m in Missions.Active(r.value.state, c)
          ensures m in Missions.Active(s, c)
        {
        }
      }
    case AssignRequest(mid, cid) => AssignKeepsAtMostOneActive(s, mid, cid);
    case UpdateTargetRequest(tid, upd) => UpdateTargetKeepsAtMostOneActive(s, tid, upd);
    case _ =>
      var s' := Apply(s, breeds, q);
      assert s'.missions == s.missions;
      forall c
        ensures Missions.Active(s', c) == Missions.Active(s, c)
      {
      }
  }

  /** `create_mission` breaks the invariant: a second mission for a cat
      with an uncompleted mission is created without complaint, and the
      cat then has two. */
  lemma CreateMissionBreaksAtMostOneActive(s: State, catId: int, inputs: seq<Missions.TargetInput>, m: int)
    requires m in Missions.Active(s, catId)
    requires catId in s.cats
    requires 1 <= |inputs| <= 3
    ensures Missions.CreateMission(s, catId, inputs).Ok?
    ensures !AtMostOneActive(Missions.CreateMission(s, catId, inputs).value.state)
  {
    var r := Missions.CreateMission(s, catId, inputs).value;
    var mid := r.value.id;
    assert mid !in s.missions;
    assert r.state.missions == s.missions[mid := Mission(Some(catId), false)];
    assert m != mid;
    assert r.state.missions[m] == s.missions[m];
    assert m in Missions.Active(r.state, catId);
    assert mid in Missions.Active(r.state, catId);
  }
}

=== FILE: missions.dfy ===
/** The mission handlers (routers/missions.py): creation with its targets,
    the two reads, deletion, assignment of a cat, and the target update that
    propagates completion to the mission. Every handler runs all of its
    checks before it writes anything, so a failure leaves the database as it
    was; here a failure simply carries no new state. */
module Missions {
  import opened Models
  import Keys

  /** One element of the `targets` list of a creation request. */
  datatype TargetInput = TargetInput(name: string, country: string, notes: string, complete: bool)

  /** The body of a target update: each field may be left out. */
  datatype TargetUpdate = TargetUpdate(notes: Option<string>, complete: Option<bool>)

  /** A target input that gives only a name and a country: the request
      schema fills in empty notes and an incomplete flag. */
  function DefaultTargetInput(name: string, country: string): TargetInput
  {
    TargetInput(name, country, "", false)
  }

  /** The row stored for a target input of mission `mid`. */
  function NewTarget(mid: int, t: TargetInput): (r: Target)
    ensures r.missionId == mid && r.name == t.name && r.country == t.country && r.notes == t.notes
    ensures r.complete.Some? && (Done(r) <==> t.complete)
  {
    Target(mid, t.name, t.country, t.notes, Some(t.complete))
  }

  /** The targets table after the loop of `create_mission` inserts one row
      per input, in order, under consecutive ids from `next`. */
  function AddTargets(ts: map<int, Target>, mid: int, next: int, inputs: seq<TargetInput>): (r: map<int, Target>)
    requires forall k :: k in ts ==> k < next
    ensures forall k :: k in r <==> k in ts || next <= k < next + |inputs|
    ensures forall k :: k in ts ==> r[k] == ts[k]
    ensures forall k :: k in r && k !in ts ==> r[k].missionId == mid
    ensures forall i :: 0 <= i < |inputs| ==> r[next + i] == NewTarget(mid, inputs[i])
    decreases |inputs|
  {
    if inputs == [] then ts
    else
      var ts' := ts[next := NewTarget(mid, inputs[0])];
      var r := AddTargets(ts', mid, next + 1, inputs[1..]);
      forall i | 0 <= i < |inputs|
        ensures r[next + i] == NewTarget(mid, inputs[i])
      {
        if i > 0 {
          assert inputs[1..][i - 1] == inputs[i];
        }
      }
      r
  }

  /** `create_mission`. The cat must exist (checked first), then the request
      must carry one to three targets. The mission is stored incomplete
      whatever the targets say, and each target is stored under a fresh id
      with the fields it was given. The cat's other missions are not looked
      at. */
  function CreateMission(s: State, catId: int, inputs: seq<TargetInput>): (r: Result<Reply<MissionView>>)
    ensures r == Err(NotFound) <==> catId !in s.cats
    ensures r == Err(BadTargetCount) <==> catId in s.cats && !(1 <= |inputs| <= 3)
    ensures r.Ok? <==> catId in s.cats && 1 <= |inputs| <= 3
    ensures r.Ok? ==>
      var v := r.value.value;
      var s' := r.value.state;
      var base := Keys.FreshId(s.targets.Keys);
      && v.id !in s.missions
      && s'.missions == s.missions[v.id := Mission(Some(catId), false)]
      && v.catId == Some(catId)
      && !v.complete
      && s'.cats == s.cats
      && (forall k :: k in s'.targets <==> k in s.targets || base <= k < base + |inputs|)
      && (forall k :: k in s.targets ==> k < base && s'.targets[k] == s.targets[k])
      && (forall k :: k in s'.targets && k !in s.targets ==> s'.targets[k].missionId == v.id)
      && (forall i :: 0 <= i < |inputs| ==> s'.targets[base + i] == NewTarget(v.id, inputs[i]))
  {
    if catId !in s.cats then Err(NotFound)
    else if !(1 <= |inputs| <= 3) then Err(BadTargetCount)
    else
      var mid := Keys.FreshId(s.missions.Keys);
      var base := Keys.FreshId(s.targets.Keys);
      var s' := State(s.cats, s.missions[mid := Mission(Some(catId), false)], AddTargets(s.targets, mid, base, inputs));
      Ok(Reply(s', View(s', mid)))
  }

  /** `get_mission`: the mission with its targets, or NotFound. */
  function GetMission(s: State, mid: int): (r: Result<MissionView>)
    ensures r.Err? <==> mid !in s.missions
    ensures r.Err? ==> r.error == NotFound
    ensures r.Ok? ==>
      && r.value.id == mid
      && r.value.catId == s.missions[mid].catId
      && r.value.complete == s.missions[mid].complete
      && (forall k :: k in r.value.targets <==> k in s.targets && s.targets[k].missionId == mid)
      && (forall k :: k in r.value.targets ==> r.value.targets[k] == s.targets[k])
  {
    if mid !in s.missions then Err(NotFound) else Ok(View(s, mid))
  }

  /** `list_missions`: every stored mission once, in id order, each with
      its targets. */
  function ListMissions(s: State): (r: seq<MissionView>)
    ensures |r| == |s.missions.Keys|
    ensures forall i :: 0 <= i < |r| ==> r[i].id in s.missions && r[i] == View(s, r[i].id)
    ensures forall i, j :: 0 <= i < j < |r| ==> r[i].id < r[j].id
  {
    ViewsOf(s, Keys.SortedKeys(s.missions.Keys))
  }

  /** Every stored mission appears in the listing. */
  lemma ListMissionsComplete(s: State, m: int)
    requires m in s.missions
    ensures View(s, m) in ListMissions(s)
  {
    var ids := Keys.SortedKeys(s.missions.Keys);
    var i :| 0 <= i < |ids| && ids[i] == m;
    assert ListMissions(s)[i] == View(s, m);
  }

  /** The response bodies of the missions `ids`, in their order. */
  function ViewsOf(s: State, ids: seq<int>): (r: seq<MissionView>)
    requires forall i :: 0 <= i < |ids| ==> ids[i] in s.missions
    ensures |r| == |ids|
    ensures forall i :: 0 <= i < |r| ==> r[i].id == ids[i] && r[i] == View(s, ids[i])
  {
    if ids == [] then [] else [View(s, ids[0])] + ViewsOf(s, ids[1..])
  }

  /** `delete_mission`: refused for an unknown id and for a mission that
      names a cat; otherwise the mission goes, and with it every target it
      owns (the `all, delete-orphan` cascade of models.py:19). */
  function DeleteMission(s: State, mid: int): (r: Result<Reply<()>>)
    ensures r == Err(NotFound) <==> mid !in s.missions
    ensures r == Err(MissionAssigned) <==> mid in s.missions && s.missions[mid].catId.Some?
    ensures r.Ok? <==> mid in s.missions && s.missions[mid].catId == None
    ensures r.Ok? ==>
      var s' := r.value.state;
      && s'.missions.Keys == s.missions.Keys - {mid}
      && (forall m :: m in s'.missions ==> s'.missions[m] == s.missions[m])
      && (forall k :: k in s'.targets <==> k in s.targets && s.targets[k].missionId != mid)
      && (forall k :: k in s'.targets ==> s'.targets[k] == s.targets[k])
      && s'.cats == s.cats
  {
    if mid !in s.missions then Err(NotFound)
    else if s.missions[mid].catId.Some? then Err(MissionAssigned)
    else
      var targets := map k | k in s.targets && s.targets[k].missionId != mid :: s.targets[k];
      Ok(Reply(State(s.cats, s.missions - {mid}, targets), ()))
  }

  /** The uncompleted missions that name cat `cid`: the rows the conflict
      query of `assign_cat_to_mission` filters for. */
  function Active(s: State, cid: int): set<int>
  {
    set m | m in s.missions && s.missions[m].catId == Some(cid) && !s.missions[m].complete
  }

  /** The position in the scan `ids` of the first row the conflict query
      of `assign_cat_to_mission` matches, or `|ids|` when none matches: what
      its `.first()` returns. */
  function FirstActiveAt(s: State, cid: int, ids: seq<int>): (r: int)
    ensures 0 <= r <= |ids|
    ensures forall j :: 0 <= j < r ==> ids[j] !in Active(s, cid)
    ensures r < |ids| ==> ids[r] in Active(s, cid)
  {
    if ids == [] then 0
    else if ids[0] in Active(s, cid) then 0
    else 1 + FirstActiveAt(s, cid, ids[1..])
  }

  /** With the table scanned in id order, the row `.first()` returns is the
      least uncompleted mission of the cat, and no row when it has none. */
  lemma {:induction false} FirstActiveIsLeast(s: State, cid: int)
    ensures
      var ids := Keys.SortedKeys(s.missions.Keys);
      var i := FirstActiveAt(s, cid, ids);
      && (i == |ids| <==> Active(s, cid) == {})
      && (i < |ids| ==> ids[i] == Keys.Least(Active(s, cid)))
  {
    var ids := Keys.SortedKeys(s.missions.Keys);
    var act := Active(s, cid);
    assert forall k :: k in act ==> k in s.missions;
    Keys.FirstMemberIsLeast(ids, act, FirstActiveAt(s, cid, ids));
  }

  /** `AssignCat` refuses exactly when the row the conflict query's
      `.first()` returns, in a scan in id order, is another mission. */
  lemma AssignRefusesOnFirstRow(s: State, mid: int, cid: int)
    ensures
      var ids := Keys.SortedKeys(s.missions.Keys);
      var i := FirstActiveAt(s, cid, ids);
      AssignCat(s, mid, cid) == Err(CatAlreadyAssigned) <==>
        mid in s.missions && cid in s.cats && i < |ids| && ids[i] != mid
  {
    FirstActiveIsLeast(s, cid);
  }

  /** `assign_cat_to_mission`. The mission must exist, then the cat. The
      conflict query takes the first uncompleted mission of the cat in scan
      order (the least id) and refuses only when that mission is not the one
      being assigned. On success only the mission's `cat_id` changes; a
      previous cat is overwritten, complete mission or not. */
  function AssignCat(s: State, mid: int, cid: int): (r: Result<Reply<MissionView>>)
    ensures r == Err(NotFound) <==> mid !in s.missions || cid !in s.cats
    ensures r.Err? ==> r.error == NotFound || r.error == CatAlreadyAssigned
    ensures r == Err(CatAlreadyAssigned) ==> exists m :: m in Active(s, cid) && m != mid
    ensures mid in s.missions && cid in s.cats && mid !in Active(s, cid) && Active(s, cid) != {}
      ==> r == Err(CatAlreadyAssigned)
    ensures mid in s.missions && cid in s.cats && Active(s, cid) <= {mid} ==> r.Ok?
    ensures r.Ok? ==>
      var s' := r.value.state;
      && s'.missions == s.missions[mid := s.missions[mid].(catId := Some(cid))]
      && s'.cats == s.cats
      && s'.targets == s.targets
      && r.value.value == View(s', mid)
  {
    if mid !in s.missions then Err(NotFound)
    else if cid !in s.cats then Err(NotFound)
    else
      var act := Active(s, cid);
      if act != {} && Keys.Least(act) != mid then Err(CatAlreadyAssigned)
      else
        var s' := s.(missions := s.missions[mid := s.missions[mid].(catId := Some(cid))]);
        Ok(Reply(s', View(s', mid)))
  }

  /** Python's `all(t.complete for t in mission.targets)`. */
  predicate AllDone(s: State, mid: int)
  {
    forall k :: k in TargetIds(s, mid) ==> Done(s.targets[k])
  }

  /** `AllDone` is `all(...)` taken over the mission's `targets`
      relationship; like Python's `all`, it holds of a mission with no
      targets. */
  lemma AllDoneOverRelationship(s: State, mid: int)
    ensures AllDone(s, mid) <==> forall k :: k in TargetsOf(s, mid) ==> Done(TargetsOf(s, mid)[k])
    ensures TargetIds(s, mid) == {} ==> AllDone(s, mid)
  {
    var ts := TargetsOf(s, mid);
    if AllDone(s, mid) {
      forall k | k in ts
        ensures Done(ts[k])
      {
        assert k in TargetIds(s, mid);
      }
    }
    if forall k :: k in ts ==> Done(ts[k]) {
      forall k | k in TargetIds(s, mid)
        ensures Done(s.targets[k])
      {
        assert k in ts;
      }
    }
  }

  /** `update_target`. Notes may not be written to a target that is
      complete. The completion flag is always overwritten with the one the
      request carries, a missing flag included, which stores null. When the
      request sets the flag to true and every target of the mission is then
      complete, the mission is marked complete; nothing ever marks it
      incomplete again. */
  function UpdateTarget(s: State, tid: int, upd: TargetUpdate): (r: Result<Reply<(int, Target)>>)
    ensures r == Err(NotFound) <==> tid !in s.targets
    ensures r == Err(TargetFrozen) <==> tid in s.targets && upd.notes.Some? && Done(s.targets[tid])
    ensures r.Err? ==> r.error == NotFound || r.error == TargetFrozen
    ensures r.Ok? ==>
      var before := s.targets[tid];
      var mid := before.missionId;
      var s' := r.value.state;
      var t := r.value.value.1;
      && r.value.value.0 == tid
      && s'.targets.Keys == s.targets.Keys
      && t == s'.targets[tid]
      && t.missionId == mid && t.name == before.name && t.country == before.country
      && t.notes == (if upd.notes.Some? then upd.notes.value else before.notes)
      && (Done(before) ==> t.notes == before.notes)
      && t.complete == upd.complete
      && (forall k :: k in s.targets && k != tid ==> s'.targets[k] == s.targets[k])
      && s'.cats == s.cats
      && s'.missions.Keys == s.missions.Keys
      && (forall m :: m in s.missions && m != mid ==> s'.missions[m] == s.missions[m])
      && (mid in s.missions ==>
            && s'.missions[mid].catId == s.missions[mid].catId
            && (s'.missions[mid].complete <==>
                  s.missions[mid].complete || (upd.complete == Some(true) && AllDone(s', mid))))
  {
    if tid !in s.targets then Err(NotFound)
    else
      var before := s.targets[tid];
      if upd.notes.Some? && Done(before) then Err(TargetFrozen)
      else
        var notes := if upd.notes.Some? then upd.notes.value else before.notes;
        var t := before.(notes := notes, complete := upd.complete);
        var targets := s.targets[tid := t];
        var mid := before.missionId;
        var s1 := s.(targets := targets);
        var missions :=
          if upd.complete == Some(true) && mid in s.missions && AllDone(s1, mid)
          then s.missions[mid := s.missions[mid].(complete := true)]
          else s.missions;
        Ok(Reply(s1.(missions := missions), (tid, t)))
  }
}

=== FILE: models.dfy ===
/** The three tables of the service and the one rule that ties them together:
    a mission owns the targets whose `mission_id` is its id (models.py).

    A table is a finite map from primary key to row. A row does not repeat its
    own id; the handlers pair the two when they return a record. */
module Models {

  datatype Option<+T> = None | Some(value: T)

  /** The failures the handlers report, one per distinct HTTPException:
      404 for a missing row, 400 for a broken business rule, 503 while the
      breed list is not loaded. */
  datatype Error =
    | NotFound
    | InvalidBreed
    | NotReady
    | BadTargetCount
    | MissionAssigned
    | CatAlreadyAssigned
    | TargetFrozen

  datatype Result<+T> = Ok(value: T) | Err(error: Error)

  /** A row of the `cats` table (models.py:5-11). */
  datatype Cat = Cat(name: string, experience: int, breed: string, salary: int)

  /** A row of the `missions` table (models.py:13-17). `catId` is a plain
      nullable integer with no foreign key: nothing ties it to a stored cat. */
  datatype Mission = Mission(catId: Option<int>, complete: bool)

  /** A row of the `targets` table (models.py:22-29). `complete` is a nullable
      column: it holds None after an update that carries no completion flag. */
  datatype Target = Target(
    missionId: int,
    name: string,
    country: string,
    notes: string,
    complete: Option<bool>)

  /** The whole database. */
  datatype State = State(
    cats: map<int, Cat>,
    missions: map<int, Mission>,
    targets: map<int, Target>)

  /** The database before any request. */
  const Empty: State := State(map[], map[], map[])

  /** What a handler that succeeds hands back: the new database and its
      response value. */
  datatype Reply<+V> = Reply(state: State, value: V)

  /** Python's truth value of a target's nullable `complete` column: a null
      flag reads as false. */
  predicate Done(t: Target)
  {
    t.complete == Some(true)
  }

  /** The three values the nullable flag can hold, read the way the
      handlers' `if target.complete` and `all(t.complete ...)` read them:
      only a stored true counts; false and null both read as incomplete. */
  lemma FlagTruthiness(t: Target)
    ensures t.complete == None ==> !Done(t)
    ensures t.complete == Some(false) ==> !Done(t)
    ensures t.complete == Some(true) ==> Done(t)
  {
  }

  /** The ids of the targets whose `mission_id` is `mid`. */
  function TargetIds(s: State, mid: int): set<int>
  {
    set k | k in s.targets && s.targets[k].missionId == mid
  }

  /** The `targets` relationship of mission `mid` (models.py:19, 25, 31):
      the target rows whose `mission_id` is `mid`, and no others. */
  function TargetsOf(s: State, mid: int): (r: map<int, Target>)
    ensures forall k :: k in r <==> k in s.targets && s.targets[k].missionId == mid
    ensures forall k :: k in r ==> r[k] == s.targets[k]
  {
    map k | k in TargetIds(s, mid) :: s.targets[k]
  }

  /** The response body of a mission: its columns together with the
      targets it owns. */
  datatype MissionView = MissionView(
    id: int,
    catId: Option<int>,
    complete: bool,
    targets: map<int, Target>)

  function View(s: State, mid: int): MissionView
    requires mid in s.missions
  {
    MissionView(mid, s.missions[mid].catId, s.missions[mid].complete, TargetsOf(s, mid))
  }

  /** Every target belongs to a stored mission, through the foreign key on
      `mission_id` that the delete cascade keeps satisfied. */
  ghost predicate Owned(s: State)
  {
    forall k :: k in s.targets ==> s.targets[k].missionId in s.missions
  }

  /** Where every target's mission is stored, each target belongs to the
      `targets` relationship of its own mission and of no other. */
  lemma OwnedTargetsPartition(s: State, k: int)
    requires Owned(s) && k in s.targets
    ensures s.targets[k].missionId in s.missions
    ensures k in TargetIds(s, s.targets[k].missionId)
    ensures forall m :: m != s.targets[k].missionId ==> k !in TargetIds(s, m)
  {
  }

  /** Every mission owns between one and three targets. */
  ghost predicate TargetCountsInRange(s: State)
  {
    forall m :: m in s.missions ==> 1 <= |TargetIds(s, m)| <= 3
  }

  /** The shape every database built by the handlers keeps. */
  ghost predicate WellFormed(s: State)
  {
    Owned(s) && TargetCountsInRange(s)
  }
}
